=== FILE: README.md ===
# Goliath::Connection, modelled in Dafny

This project models the per-connection lifecycle of `Goliath::Connection`,
the EventMachine connection class of the Goliath web server. The class does
the following:

- feeds incoming bytes to the request parser;
- calls the Rack application once the request is finished;
- stores and sends the `[status, headers, body]` triple the application returns;
- takes a deferred result later through `async_process` when the application returns the sentinel `[-1, {}, []]`;
- terminates the exchange.

The model is a set of pure step functions over an immutable connection
record (`Connection.Conn`). Each step returns a `Step` with three parts:

- the new connection;
- the effects of that call, in order;
- whether a Ruby exception propagates out of the call.

Effects (`Effects.Effect`) cover these events:

- parser input;
- the application call;
- each `send_data` chunk;
- `close_connection_after_writing`;
- the `async_close` signal;
- the response close;
- the body `fail`;
- the log lines.

The properties count how often each effect happens on each path. Examples: exactly one termination, the response's chunks written in order, no write after the close.

Collaborators whose code is not part of this model are inputs:

- the parser's `finished?` answer after a parse;
- the application's outcome (`Connection.AppOutcome`: a returned `nil` or Array, or a raise);
- `Response#each`, given as a function from a response to the chunks it yields and whether it raises after them;
- whether the request carries an `async_close` deferrable or `nil`.

Files:

- `effects.dfy`: the effect trace, counting, the bytes written, and the "no write after close" predicate.
- `values.dfy`: Ruby values, the sentinel, `to_a`, `async_response?` and the parallel assignment into the response.
- `connection.dfy`: every method of the class as a step function.
- `properties.dfy`: per-call properties of each path.
- `lifecycle.dfy`: properties over whole exchanges, and concrete scenarios.

`Connection.ReceiveData` runs the source's `process`
(`Connection.ProcessAsWritten`). `Connection.Process` is the corrected
`process` described under "## Findings". `Properties.ProcessAsWrittenAgrees`
shows the two are equal whenever `async_close` is present or the
application raises.

Two behaviours of the source are worth knowing when reading the lemmas:

- `unbind` signals `async_close` again after a normal termination. `close_request_response` never clears the handle, and `unbind` only checks it for `nil` (lib/goliath/connection.rb:78). `Lifecycle.UnbindAfterTerminationSignalsAgain` states this.
- `terminate_request` on a `nil` `async_close` raises `NoMethodError` at lib/goliath/connection.rb:73. In the model this is the one way `terminate_request` can raise (see `Connection.CloseRequestResponse` under "## Left out").

## Model

| member | source | states |
|---|---|---|
| Values.ToA | lib/goliath/connection.rb:43 | `nil.to_a` is the empty array and an Array converts to itself |
| Values.Assign | lib/goliath/connection.rb:46 | parallel assignment takes the first three elements, drops extras, and pads missing fields with `nil` |
| Values.AssignFields | lib/goliath/connection.rb:46 | unpacking a response's own three fields gives the same response back |
| Values.FieldsAssign | lib/goliath/connection.rb:46 | a three-element result is stored field by field, unchanged |
| Values.AsyncResponse | lib/goliath/connection.rb:63-65 | `nil` and `[]` are never the sentinel; a non-empty result is the sentinel iff its first element equals -1 |
| Values.OnlyMinusOneIsAsync | lib/goliath/connection.rb:63-65 | a non-empty result is the async sentinel iff its first element is the integer -1 |
| Values.AsyncResponseIgnoresRest | lib/goliath/connection.rb:63-65 | headers and body are never inspected: two results with the same first element classify alike |
| Values.SentinelRecognised | lib/goliath/connection.rb:9 | the sentinel `[-1, {}, []]` is recognised, while the 500 fallback, `nil` and `[]` are not |
| Connection.PostInit | lib/goliath/connection.rb:11-17 | a fresh connection has an empty request carrying the peer address, the async callback wired, and the settings mirrored |
| Connection.SetLogger | lib/goliath/connection.rb:88-91 | the logger is stored in the connection and its request, nothing else changes, and mirroring is preserved |
| Connection.SetStatus | lib/goliath/connection.rb:93-96 | the status object is stored in both places, nothing else changes, and mirroring is preserved |
| Connection.SetConfig | lib/goliath/connection.rb:98-101 | the config is stored in both places, nothing else changes, and mirroring is preserved |
| Connection.SetOptions | lib/goliath/connection.rb:103-106 | the options are stored in both places, nothing else changes, and mirroring is preserved |
| Properties.SettersKeepLast | lib/goliath/connection.rb:88-106 | setting a value twice is the same as setting the last value once |
| Connection.CloseRequestResponse | lib/goliath/connection.rb:72-75 | a leaf effect sequence: with a handle it signals `async_close` and then closes the response; a `nil` handle raises before either happens. Its order within termination is stated by `Properties.TerminateRequestInOrder` |
| Connection.TerminateRequest | lib/goliath/connection.rb:67-70 | close-after-writing comes first and only once, nothing is written, and it raises iff `async_close` is `nil` |
| Properties.TerminateRequestInOrder | lib/goliath/connection.rb:67-75 | the order is close after writing, then signal, then response close; a `nil` handle stops after the first step |
| Connection.SendResponse | lib/goliath/connection.rb:59-61 | exactly the chunks `each` yields are written, in order, and `each`'s exception propagates |
| Connection.SyncLogs | lib/goliath/connection.rb:47-48 | the body is logged iff the status is not 200, and the debug line fires iff the body is `nil` |
| Connection.PostProcess | lib/goliath/connection.rb:42-57 | a sentinel leaves the connection untouched with no effect; otherwise the triple is stored and the call raises iff termination raises |
| Properties.PostProcessSyncShape | lib/goliath/connection.rb:42-57 | the synchronous effects are: diagnostics, then one write per chunk, then the rescued error if any, then termination |
| Properties.PostProcessSyncWrites | lib/goliath/connection.rb:46-57 | the synchronous path writes exactly the stored response's chunks, and none after the close |
| Properties.PostProcessSyncCounts | lib/goliath/connection.rb:42-57 | exactly one termination even when sending raises; a send failure is logged once and swallowed; only a failing termination propagates |
| Properties.PostProcessDeferred | lib/goliath/connection.rb:42-56 | on a sentinel, the response is unchanged and there is no write, termination or signal |
| Connection.Process | lib/goliath/connection.rb:24-30 | (corrected) the application is called first; only the response changes; a raise is logged first and only then answered by the 500 fallback's `post_process`; a sentinel leaves the connection as it was |
| Connection.ProcessAsWritten | lib/goliath/connection.rb:24-30 | (as written, run by `receive_data`) the application is called first; only the response changes; a raise is logged first and only then answered by the fallback's `post_process`; a sentinel does nothing beyond calling the application |
| Properties.ProcessTerminatesOnce | lib/goliath/connection.rb:24-30 | on any non-sentinel outcome: one application call, exactly the stored chunks written, one termination after the last write, and raised iff `async_close` is `nil` |
| Properties.ProcessCallsAppOnce | lib/goliath/connection.rb:24-29 | every `process` calls the application exactly once |
| Properties.ProcessAppRaised | lib/goliath/connection.rb:27-29 | after the application raises, the stored response is the fallback with status 500 and body "An error happened" |
| Properties.ProcessAppRaisedLogs | lib/goliath/connection.rb:27-29 | an application error is logged once, or twice if sending the fallback also raises |
| Properties.ProcessDeferred | lib/goliath/connection.rb:24-25 | a sentinel result leaves the connection as it was: one application call, no write, no termination |
| Properties.ProcessAsWrittenAgrees | lib/goliath/connection.rb:24-30 | while `async_close` is present, or when the application raises, the source's `process` and the corrected one agree on every outcome |
| Properties.ProcessAsWrittenTerminatesTwice | lib/goliath/connection.rb:24-30 | with a `nil` `async_close`, the source's `process` terminates twice and still raises |
| Properties.ProcessAsWrittenWritesTwice | lib/goliath/connection.rb:24-30 | with a `nil` `async_close`, both the response and the fallback are written, and a non-empty fallback is written after the close |
| Connection.AsyncProcess | lib/goliath/connection.rb:32-40 | the delivered triple is stored, the summary line is logged first, and a raising `each` propagates |
| Properties.AsyncProcessDelivers | lib/goliath/connection.rb:32-40 | when sending succeeds: one summary log, exactly the chunks written, one termination after them, and raised iff `async_close` is `nil` |
| Properties.AsyncProcessSendFails | lib/goliath/connection.rb:32-40 | when sending raises: the exception escapes, no error log, no termination and no signal |
| Connection.Unbind | lib/goliath/connection.rb:77-80 | it does only two things: `async_close` is signalled iff present, and the body is failed iff it responds to `fail`; nothing is written, closed or logged |
| Lifecycle.UnbindAddsNothing | lib/goliath/connection.rb:77-80 | after any trace, `unbind` adds no write and no close |
| Connection.ReceiveData | lib/goliath/connection.rb:19-22 | the data always reaches the parser first; an unfinished request stops there, and a finished one runs the source's `process`, whose first effect is the application call |
| Properties.ProcessAsWrittenCallsAppOnce | lib/goliath/connection.rb:24-30 | the source's `process` calls the application exactly once, even when it runs `post_process` twice |
| Properties.NilHandleCallsAppOnce | lib/goliath/connection.rb:24-30 | with a `nil` `async_close`, the application is still called only once, although `post_process` runs twice |
| Properties.ProcessAsWrittenLogsBody | lib/goliath/connection.rb:24-48 | the source's `process` logs the body once for a non-200 response, and once more for the 500 fallback when `async_close` is `nil` |
| Properties.ReceiveDataProcessesIffFinished | lib/goliath/connection.rb:19-22 | the application is called once if the request is finished after this parse, and never otherwise |
| Lifecycle.ReceiveDataKeepsMirrored | lib/goliath/connection.rb:88-106 | receiving data keeps the settings mirrored into the request and changes none of them |
| Lifecycle.OperationsKeepMirrored | lib/goliath/connection.rb:88-106 | `process`, the callback and `unbind` keep the settings mirrored |
| Lifecycle.SyncRequestWrites | lib/goliath/connection.rb:19-30 | with `async_close` present, or when the handler raised, a completed request writes exactly its stored response's chunks, and none after the close (the `nil`-handle case with a normal result is `Lifecycle.NilHandleRequestWritesTwice`) |
| Lifecycle.SyncRequestCompletes | lib/goliath/connection.rb:19-30 | with a handle present: one application call, one termination, one signal, and nothing propagates |
| Lifecycle.NilHandleRequestTerminatesTwice | lib/goliath/connection.rb:19-30 | with a `nil` `async_close`, a normally answered request terminates twice and `receive_data` raises |
| Lifecycle.NilHandleRequestWritesTwice | lib/goliath/connection.rb:19-30 | with a `nil` `async_close`, `receive_data` writes the application's chunks and then the fallback's, the latter after the close when non-empty |
| Lifecycle.SyncRequestStores | lib/goliath/connection.rb:19-30 | the stored response is the application's triple; it is the 500 fallback if the application raised, or if a `nil` `async_close` sent `process` into its `rescue` |
| Lifecycle.SyncRequestLogsBody | lib/goliath/connection.rb:19-47 | the body is logged iff the status is not 200, plus once more for the fallback's 500 body when `async_close` is `nil` |
| Lifecycle.RaisingRequestCompletes | lib/goliath/connection.rb:19-30 | a raising handler's request answers with status 500, writes the fallback's chunks, logs once and terminates once |
| Lifecycle.DeferredRequestWaits | lib/goliath/connection.rb:19-44 | a sentinel result leaves the response unchanged, with no write, no close and no exception |
| Lifecycle.DeferredRequestCompletes | lib/goliath/connection.rb:32-40 | over the sentinel call and the callback together: the delivered chunks are written, with one termination and one signal |
| Lifecycle.UnbindWhileDeferred | lib/goliath/connection.rb:77-80 | a disconnect while deferred signals once, writes and closes nothing, and fails the body iff it can fail |
| Lifecycle.UnbindAfterTerminationSignalsAgain | lib/goliath/connection.rb:77-78 | a disconnect after a synchronous termination signals `async_close` a second time |
| Lifecycle.ScenarioHello | lib/goliath/connection.rb:19-61 | a 200 "hello" handler writes "hello", logs no body, closes once and does not raise |
| Lifecycle.ScenarioDeferred | lib/goliath/connection.rb:32-40 | a deferred "ok" writes nothing at first, then "ok" once with one close |
| Lifecycle.ScenarioHandlerRaises | lib/goliath/connection.rb:27-29 | a raising handler gets status 500 and "An error happened" written, with one error log and one close |
| Lifecycle.ScenarioDisconnectWhilePending | lib/goliath/connection.rb:77-80 | a disconnect while deferred signals once, writes nothing and fails no body |
| Lifecycle.ScenarioNilAsyncClose | lib/goliath/connection.rb:24-30 | on a connection with a logger and a `nil` `async_close`, the source's `process` closes twice, writes after the close and raises |
| Lifecycle.ScenarioNilAsyncCloseWrites | lib/goliath/connection.rb:24-30 | on a connection with a logger and a `nil` `async_close`, the source's `process` writes "hello" and then "An error happened" |
| Lifecycle.NilHandleHelloWrites | lib/goliath/connection.rb:24-30 | on any connection with a `nil` `async_close`, the source's `process` answering `[200, {}, ["hello"]]` writes "hello" and then "An error happened" |
| Lifecycle.ScenarioNilAsyncCloseCorrected | lib/goliath/connection.rb:24-30 | the corrected `process` writes "hello" once, closes once and still raises |

## Left out

- `remote_address` (lib/goliath/connection.rb:82-86) unpacks a socket address and rescues every failure. The model takes the peer address as an `Option` input to `PostInit`.
- The transport (`send_data`, `close_connection_after_writing`) is foreign I/O. Each call is recorded as an effect, and a failing close is absorbed as the source's `rescue nil` absorbs it.
- `Goliath::Request` is not part of this model: parsing, the environment and the start time. A parse is recorded with its data, and `finished?` is an input.
- `Goliath::Response` is not part of this model. `each` is an input function, `close` is an effect whose failure is absorbed, and `body_str` is not modelled. The model assumes logging the body does not raise.
- The log message text and the latency computed with `Time.now` and `"%.2f"` (lib/goliath/connection.rb:34-36) are left out. This is wall-clock time and floating point; each log line is one effect.
- What `EM::Deferrable#succeed` does on a repeated call is left out. The signal is recorded each time the source calls it, and idempotence is not assumed.
- An application returning something other than `nil` or an Array is left out: the model's `AppOutcome` only returns those two.
- A `nil` logger is left out: logging is assumed not to raise.
- A `@response.body.fail` that raises inside `unbind` is left out.
- Ruby's `-1.0 == -1` is left out: the model has no floats, so only the integer -1 marks the sentinel.
- Connection.CloseRequestResponse: `@request.async_close.succeed` on a present handle is assumed not to raise. In the source it runs the callbacks attached to the deferrable, and an exception from one of them would escape `terminate_request` just as the `nil` case does, with the same double response through the rescue at lib/goliath/connection.rb:27. `Properties.ProcessAsWrittenAgrees` holds under this assumption.
- Connection.PostProcess: only the stored response and whether it raises appear in its own contract. The effect counts are stated by `Properties.PostProcessSyncCounts` and `Properties.PostProcessSyncWrites`.

## Findings

| source | as written | input that shows it | evidently intended | confidence | as-written member | corrected member |
|---|---|---|---|---|---|---|
| lib/goliath/connection.rb:24-30 | `process`'s `rescue Exception` also catches what escapes `post_process`'s `ensure terminate_request`, so a failing termination triggers a second `post_process` with the 500 fallback | a request with a logger whose `async_close` is `nil`, answered `[200, {}, ["hello"]]`: "hello" is handed to `send_data`, the connection is asked to close, `succeed` on `nil` raises, then "An error happened" is handed to `send_data` after the close was requested, `terminate_request` runs again and raises again. An `async_close` callback that raises inside `succeed` would trigger the same path; the model leaves that case out | the rescue stands in for the application's result only, so each request is answered and terminated once | low, not executed | Properties.ProcessAsWrittenTerminatesTwice | Properties.ProcessTerminatesOnce |

=== FILE: connection.dfy ===
/**
  `Goliath::Connection` as pure step functions.

  A connection owns one `Request` and one `Response` and mirrors four
  process-wide settings into its request. Every operation takes the current
  `Conn` and returns a `Step`: the new connection, the effects of this call
  in order, and whether a Ruby exception propagates out of the call.

  What the collaborators do is an input: the parser's `finished?` answer
  after a parse, the application's outcome, and `Response#each` as the
  function `each` from a response to the chunks it yields (and whether it
  raises after yielding them).
 */
module Connection {
  import opened Effects
  import opened Values

  /** A process-wide object the connection only passes on (logger, status,
      config, options). */
  datatype Ref = Ref(id: nat)

  /** `@request.async_close`: a deferrable, or `nil`. */
  datatype AsyncClose = NoHandle | Handle

  datatype Request = Request(
    remoteAddress: Option<string>,
    asyncCallbackWired: bool,
    asyncClose: AsyncClose,
    received: seq<string>,
    finished: bool,
    logger: Option<Ref>,
    status: Option<Ref>,
    config: Option<Ref>,
    options: Option<Ref>)

  datatype Conn = Conn(
    request: Request,
    response: Response,
    logger: Option<Ref>,
    status: Option<Ref>,
    config: Option<Ref>,
    options: Option<Ref>)

  /** What `@response.each` yields before finishing or raising. */
  datatype Emission = Emission(chunks: seq<Chunk>, raises: bool)

  /** What `@app.call(env)` does: return `nil` or an Array, or raise. */
  datatype AppOutcome = Returned(results: Option<seq<Value>>) | AppRaised

  datatype Step = Step(conn: Conn, effects: seq<Effect>, raised: bool)

  /** The four settings the connection holds agree with its request's copy. */
  predicate Mirrored(c: Conn)
  {
    && c.logger == c.request.logger
    && c.status == c.request.status
    && c.config == c.request.config
    && c.options == c.request.options
  }

  /** `post_init`: a fresh request and response, the peer address when it
      could be resolved, and `async_process` wired as the request's async
      callback. `handle` is the `async_close` the new request carries. */
  function PostInit(handle: AsyncClose, peer: Option<string>, initial: Response): (c: Conn)
    ensures Mirrored(c)
    ensures c.request.remoteAddress == peer
    ensures c.request.asyncCallbackWired
    ensures c.request.asyncClose == handle
    ensures c.request.received == [] && !c.request.finished
    ensures c.response == initial
  {
    Conn(Request(peer, true, handle, [], false, None, None, None, None),
         initial, None, None, None, None)
  }

  /** `logger=`: stores the logger and mirrors it into the request. */
  function SetLogger(c: Conn, logger: Option<Ref>): (r: Conn)
    ensures r.logger == logger && r.request.logger == logger
    ensures r.(logger := c.logger, request := c.request) == c
    ensures r.request.(logger := c.request.logger) == c.request
    ensures Mirrored(c) ==> Mirrored(r)
  {
    c.(logger := logger, request := c.request.(logger := logger))
  }

  /** `status=`: stores the status object and mirrors it into the request. */
  function SetStatus(c: Conn, status: Option<Ref>): (r: Conn)
    ensures r.status == status && r.request.status == status
    ensures r.(status := c.status, request := c.request) == c
    ensures r.request.(status := c.request.status) == c.request
    ensures Mirrored(c) ==> Mirrored(r)
  {
    c.(status := status, request := c.request.(status := status))
  }

  /** `config=`: stores the config and mirrors it into the request. */
  function SetConfig(c: Conn, config: Option<Ref>): (r: Conn)
    ensures r.config == config && r.request.config == config
    ensures r.(config := c.config, request := c.request) == c
    ensures r.request.(config := c.request.config) == c.request
    ensures Mirrored(c) ==> Mirrored(r)
  {
    c.(config := config, request := c.request.(config := config))
  }

  /** `options=`: stores the options and mirrors them into the request. */
  function SetOptions(c: Conn, options: Option<Ref>): (r: Conn)
    ensures r.options == options && r.request.options == options
    ensures r.(options := c.options, request := c.request) == c
    ensures r.request.(options := c.request.options) == c.request
    ensures Mirrored(c) ==> Mirrored(r)
  {
    c.(options := options, request := c.request.(options := options))
  }

  /** `close_request_response`: signal `async_close`, then close the
      response, whose failures are rescued. Calling `succeed` on a `nil`
      handle raises before the response is closed. */
  function CloseRequestResponse(c: Conn): (r: Step)
    ensures r.conn == c
    ensures r.raised <==> c.request.asyncClose.NoHandle?
    ensures r.raised ==> r.effects == []
    ensures !r.raised ==> r.effects == [AsyncCloseSignal, ResponseClose]
  {
    match c.request.asyncClose
    case NoHandle => Step(c, [], true)
    case Handle => Step(c, [AsyncCloseSignal, ResponseClose], false)
  }

  /** `terminate_request`: ask the transport to close once writes are
      flushed (failures rescued), then `close_request_response`. */
  function TerminateRequest(c: Conn): (r: Step)
    ensures r.conn == c
    ensures |r.effects| > 0 && r.effects[0] == CloseAfterWriting
    ensures Count(r.effects, CloseAfterWriting) == 1
    ensures Silent(r.effects) && WritesOf(r.effects) == []
    ensures forall e :: e in r.effects ==> e == CloseAfterWriting || e == AsyncCloseSignal || e == ResponseClose
    ensures r.raised <==> c.request.asyncClose.NoHandle?
    ensures Count(r.effects, AsyncCloseSignal) == (if r.raised then 0 else 1)
    ensures Count(r.effects, ResponseClose) == (if r.raised then 0 else 1)
    ensures !r.raised ==> r.effects[|r.effects| - 1] == ResponseClose
  {
    var s := CloseRequestResponse(c);
    var t := [CloseAfterWriting] + s.effects;
    WritesOfSilent(t);
    Step(c, t, s.raised)
  }

  /** `send_response`: one `send_data` per chunk `@response.each` yields;
      an exception from `each` propagates. */
  function SendResponse(c: Conn, each: Response -> Emission): (r: Step)
    ensures r.conn == c
    ensures WritesOf(r.effects) == each(c.response).chunks
    ensures forall i :: 0 <= i < |r.effects| ==> r.effects[i].Write?
    ensures r.raised == each(c.response).raises
  {
    var em := each(c.response);
    WritesOfWrites(em.chunks);
    Step(c, Writes(em.chunks), em.raises)
  }

  /** The two diagnostics `post_process` logs before sending: the body at
      info level unless the status is 200, and a debug line if the body is
      `nil`. */
  function SyncLogs(resp: Response): (t: seq<Effect>)
    ensures Count(t, LogSyncBody) == (if resp.status == Int(200) then 0 else 1)
    ensures Count(t, LogNilBody) == (if resp.body == Nil then 1 else 0)
    ensures forall e :: e in t ==> e == LogSyncBody || e == LogNilBody
    ensures Silent(t)
  {
    (if resp.status != Int(200) then [LogSyncBody] else [])
      + (if resp.body == Nil then [LogNilBody] else [])
  }

  /** `post_process(results)`. A sentinel returns at once and its `ensure`
      does nothing. Otherwise the triple is stored, logged, sent, and the
      `ensure` runs `terminate_request`; an exception from sending is logged
      and does not propagate, but one from `terminate_request` does. */
  function PostProcess(c: Conn, results: Option<seq<Value>>, each: Response -> Emission): (r: Step)
    ensures AsyncResponse(Some(ToA(results))) ==> r == Step(c, [], false)
    ensures !AsyncResponse(Some(ToA(results))) ==>
      && r.conn == c.(response := Assign(ToA(results)))
      && (r.raised <==> c.request.asyncClose.NoHandle?)
  {
    var a := ToA(results);
    if AsyncResponse(Some(a)) then Step(c, [], false)
    else
      var c' := c.(response := Assign(a));
      var sent := SendResponse(c', each);
      var rescued := if sent.raised then [LogError] else [];
      var term := TerminateRequest(c');
      Step(c', SyncLogs(c'.response) + sent.effects + rescued + term.effects, term.raised)
  }

  /** `process` as the source writes it, and the one `receive_data` runs:
      the `rescue` covers the whole method, so an exception escaping
      `post_process` (in this model only its `ensure terminate_request`
      can raise) is also answered with the 500 fallback, a second time
      through `post_process`. */
  function ProcessAsWritten(c: Conn, app: AppOutcome, each: Response -> Emission): (r: Step)
    ensures |r.effects| > 0 && r.effects[0] == AppCalled
    ensures r.conn == c.(response := r.conn.response)
    ensures app.AppRaised? ==> r.conn.response == Assign(FallbackResult)
    ensures app.AppRaised? ==> |r.effects| >= 2 && r.effects[..2] == [AppCalled, LogError]
    ensures app.AppRaised? ==> r.effects[2..] == PostProcess(c, Some(FallbackResult), each).effects
    ensures app.Returned? && AsyncResponse(Some(ToA(app.results))) ==>
      r == Step(c, [AppCalled], false)
  {
    match app
    case AppRaised =>
      var f := PostProcess(c, Some(FallbackResult), each);
      Step(f.conn, [AppCalled, LogError] + f.effects, f.raised)
    case Returned(results) =>
      var s := PostProcess(c, results, each);
      if s.raised then
        var f := PostProcess(s.conn, Some(FallbackResult), each);
        Step(f.conn, [AppCalled] + s.effects + [LogError] + f.effects, f.raised)
      else
        Step(s.conn, [AppCalled] + s.effects, false)
  }

  /** `process` with its `rescue` limited to `@app.call`, so the fallback
      stands in for the application's result only. While `async_close` is
      present, or when the application raises, it is the source's
      `process` (`Properties.ProcessAsWrittenAgrees`). */
  function Process(c: Conn, app: AppOutcome, each: Response -> Emission): (r: Step)
    ensures |r.effects| > 0 && r.effects[0] == AppCalled
    ensures r.conn == c.(response := r.conn.response)
    ensures app.AppRaised? ==> r.conn.response == Assign(FallbackResult)
    ensures app.AppRaised? ==> r.conn.response.status == Int(500)
    ensures app.AppRaised? ==> |r.effects| >= 2 && r.effects[..2] == [AppCalled, LogError]
    ensures app.AppRaised? ==> r.effects[2..] == PostProcess(c, Some(FallbackResult), each).effects
    ensures app.Returned? && AsyncResponse(Some(ToA(app.results))) ==>
      r == Step(c, [AppCalled], false)
    ensures app.Returned? && !AsyncResponse(Some(ToA(app.results))) ==>
      r.conn.response == Assign(ToA(app.results))
  {
    var results := if app.AppRaised? then Some(FallbackResult) else app.results;
    var pre := if app.AppRaised? then [AppCalled, LogError] else [AppCalled];
    var s := PostProcess(c, results, each);
    Step(s.conn, pre + s.effects, s.raised)
  }

  /** `receive_data(data)`: always feed the parser; run the source's
      `process` only if the request reports `finished?` after this parse. */
  function ReceiveData(c: Conn, data: string, finished: bool, app: AppOutcome,
                       each: Response -> Emission): (r: Step)
    ensures |r.effects| > 0 && r.effects[0] == Parsed(data)
    ensures r.conn.request.received == c.request.received + [data]
    ensures r.conn.request.finished == finished
    ensures !finished ==> r.effects == [Parsed(data)] && !r.raised
    ensures !finished ==> r.conn.response == c.response
    ensures finished ==> |r.effects| > 1 && r.effects[1] == AppCalled
  {
    var c' := c.(request := c.request.(received := c.request.received + [data], finished := finished));
    if finished then
      var p := ProcessAsWritten(c', app, each);
      Step(p.conn, [Parsed(data)] + p.effects, p.raised)
    else
      Step(c', [Parsed(data)], false)
  }

  /** `async_process(results)`: the callback that delivers a deferred
      result. It stores and logs the triple, sends it and terminates, with
      no `rescue`: if sending raises, the exception propagates and
      `terminate_request` is skipped. */
  function AsyncProcess(c: Conn, results: Option<seq<Value>>, each: Response -> Emission): (r: Step)
    ensures r.conn == c.(response := Assign(ToA(results)))
    ensures |r.effects| > 0 && r.effects[0] == LogAsyncSummary
    ensures each(r.conn.response).raises ==> r.raised
  {
    var c' := c.(response := Assign(ToA(results)));
    var sent := SendResponse(c', each);
    if sent.raised then
      Step(c', [LogAsyncSummary] + sent.effects, true)
    else
      var term := TerminateRequest(c');
      Step(c', [LogAsyncSummary] + sent.effects + term.effects, term.raised)
  }

  /** `unbind`: the peer went away. Signal `async_close` if there is one,
      and fail the body if it can fail; nothing is written or closed. */
  function Unbind(c: Conn): (r: Step)
    ensures r.conn == c && !r.raised
    ensures WritesOf(r.effects) == []
    ensures Silent(r.effects)
    ensures Count(r.effects, CloseAfterWriting) == 0
    ensures Count(r.effects, ResponseClose) == 0
    ensures Count(r.effects, AsyncCloseSignal) == (if c.request.asyncClose.Handle? then 1 else 0)
    ensures Count(r.effects, BodyFail) == (if RespondsToFail(c.response.body) then 1 else 0)
    ensures forall e :: e in r.effects ==> e == AsyncCloseSignal || e == BodyFail
  {
    var t := (if c.request.asyncClose.Handle? then [AsyncCloseSignal] else [])
      + (if RespondsToFail(c.response.body) then [BodyFail] else []);
    WritesOfSilent(t);
    Step(c, t, false)
  }
}

=== FILE: effects.dfy ===
/**
  Observable effects of a Goliath connection, recorded as a trace.

  The connection talks to collaborators this model does not contain (the
  EventMachine transport, the request parser, the response serializer, the
  logger and the application). Every call it makes to one of them is recorded
  as one `Effect`, so that the lifecycle properties become statements about
  how many times an effect occurs in a trace.
 */
module Effects {

  /** One chunk of serialized response bytes handed to `send_data`. */
  type Chunk = string

  datatype Effect =
    | Parsed(data: string)   // request.parse(data)
    | AppCalled              // @app.call(@request.env)
    | Write(chunk: Chunk)    // send_data(chunk)
    | CloseAfterWriting      // close_connection_after_writing (failures rescued)
    | AsyncCloseSignal       // @request.async_close.succeed
    | ResponseClose          // @response.close (failures rescued)
    | BodyFail               // @response.body.fail
    | LogError               // logger.error with message and backtrace
    | LogSyncBody            // logger.info of the synchronous body
    | LogNilBody             // logger.debug about a nil body
    | LogAsyncSummary        // logger.info of status, length and latency

  /** How many times `e` occurs in the trace `t`. */
  function Count(t: seq<Effect>, e: Effect): (n: nat)
    ensures n <= |t|
  {
    if |t| == 0 then 0 else (if t[0] == e then 1 else 0) + Count(t[1..], e)
  }

  /** An effect is counted zero times exactly when it does not occur. */
  lemma {:induction false} CountZero(t: seq<Effect>, e: Effect)
    ensures Count(t, e) == 0 <==> e !in t
  {
    if |t| > 0 {
      CountZero(t[1..], e);
      assert t == [t[0]] + t[1..];
    }
  }

  /** Counting distributes over concatenation. */
  lemma {:induction false} CountAppend(a: seq<Effect>, b: seq<Effect>, e: Effect)
    ensures Count(a + b, e) == Count(a, e) + Count(b, e)
  {
    if |a| == 0 {
      assert a + b == b;
    } else {
      assert (a + b)[1..] == a[1..] + b;
      CountAppend(a[1..], b, e);
    }
  }

  /** One `Write` per chunk, in the order the chunks are produced. */
  function Writes(chunks: seq<Chunk>): (t: seq<Effect>)
    ensures |t| == |chunks|
    ensures forall i :: 0 <= i < |t| ==> t[i] == Write(chunks[i])
  {
    if |chunks| == 0 then [] else [Write(chunks[0])] + Writes(chunks[1..])
  }

  /** The chunks handed to `send_data`, in order: the chunks of every
      `Write` in the trace, every other effect dropped. */
  function WritesOf(t: seq<Effect>): (w: seq<Chunk>)
    ensures |w| <= |t|
  {
    if |t| == 0 then []
    else (if t[0].Write? then [t[0].chunk] else []) + WritesOf(t[1..])
  }

  /** The bytes written by a concatenation of traces are the concatenation
      of the bytes each trace writes. */
  lemma {:induction false} WritesOfAppend(a: seq<Effect>, b: seq<Effect>)
    ensures WritesOf(a + b) == WritesOf(a) + WritesOf(b)
  {
    if |a| == 0 {
      assert a + b == b;
    } else {
      var head := if a[0].Write? then [a[0].chunk] else [];
      assert (a + b)[0] == a[0];
      assert (a + b)[1..] == a[1..] + b;
      assert WritesOf(a + b) == head + WritesOf(a[1..] + b);
      WritesOfAppend(a[1..], b);
      assert WritesOf(a) == head + WritesOf(a[1..]);
    }
  }

  /** Writing chunks one by one hands exactly those chunks to `send_data`. */
  lemma {:induction false} WritesOfWrites(chunks: seq<Chunk>)
    ensures WritesOf(Writes(chunks)) == chunks
  {
    if |chunks| > 0 {
      assert Writes(chunks)[1..] == Writes(chunks[1..]);
      WritesOfWrites(chunks[1..]);
    }
  }

  /** The trace hands nothing to `send_data`. */
  predicate Silent(t: seq<Effect>)
  {
    forall i :: 0 <= i < |t| ==> !t[i].Write?
  }

  /** A trace with no `Write` in it hands nothing to `send_data`. */
  lemma {:induction false} WritesOfSilent(t: seq<Effect>)
    requires Silent(t)
    ensures WritesOf(t) == []
  {
    if |t| > 0 {
      WritesOfSilent(t[1..]);
    }
  }

  /** A trace made only of writes contains no other effect. */
  lemma CountWrites(chunks: seq<Chunk>, e: Effect)
    requires !e.Write?
    ensures Count(Writes(chunks), e) == 0
  {
    assert e !in Writes(chunks);
    CountZero(Writes(chunks), e);
  }

  /** Once `close_connection_after_writing` has been requested, nothing more
      is handed to `send_data`. */
  predicate NoWriteAfterClose(t: seq<Effect>)
  {
    forall i, j :: 0 <= i < j < |t| && t[i] == CloseAfterWriting ==> !t[j].Write?
  }

  /** Appending keeps writes ahead of the close when the first part has not
      asked to close yet, or the second part writes nothing. */
  lemma NoWriteAfterCloseAppend(a: seq<Effect>, b: seq<Effect>)
    requires NoWriteAfterClose(a) && NoWriteAfterClose(b)
    requires CloseAfterWriting !in a || Silent(b)
    ensures NoWriteAfterClose(a + b)
  {
    var t := a + b;
    forall i, j | 0 <= i < j < |t| && t[i] == CloseAfterWriting
      ensures !t[j].Write?
    {
      if i < |a| && j >= |a| {
        assert a[i] == CloseAfterWriting;
        assert t[j] == b[j - |a|];
      } else if i >= |a| {
        assert t[i] == b[i - |a|] && t[j] == b[j - |a|];
      }
    }
  }

  /** A response sent between quiet effects: a prefix that neither writes
      nor closes, one write per chunk, then a suffix that does not write.
      Exactly the chunks are handed to `send_data`, and none after the close. */
  lemma WritesThenSilent(pre: seq<Effect>, chunks: seq<Chunk>, post: seq<Effect>)
    requires Silent(pre) && CloseAfterWriting !in pre && Silent(post)
    ensures WritesOf(pre + Writes(chunks) + post) == chunks
    ensures NoWriteAfterClose(pre + Writes(chunks) + post)
  {
    var w := Writes(chunks);
    WritesOfSilent(pre);
    WritesOfSilent(post);
    WritesOfWrites(chunks);
    WritesOfAppend(pre, w);
    assert WritesOf(pre + w) == chunks by {
      assert [] + chunks == chunks;
    }
    WritesOfAppend(pre + w, post);
    assert chunks + [] == chunks;
    CloseOnlyAfterWrites(pre, chunks, post);
  }

  /** Nothing is written after the close when the close comes last. */
  lemma CloseOnlyAfterWrites(pre: seq<Effect>, chunks: seq<Chunk>, post: seq<Effect>)
    requires CloseAfterWriting !in pre && Silent(post)
    ensures NoWriteAfterClose(pre + Writes(chunks) + post)
  {
    var w := Writes(chunks);
    var t := pre + w + post;
    assert forall k :: 0 <= k < |pre| ==> t[k] == pre[k];
    assert forall k :: |pre| <= k < |pre| + |w| ==> t[k] == w[k - |pre|];
    assert forall k :: |pre| + |w| <= k < |t| ==> t[k] == post[k - |pre| - |w|];
  }

  /** Quiet effects in front of a trace change neither what it writes nor
      whether it writes after closing. */
  lemma QuietPrefix(pre: seq<Effect>, t: seq<Effect>)
    requires Silent(pre) && CloseAfterWriting !in pre
    ensures WritesOf(pre + t) == WritesOf(t)
    ensures NoWriteAfterClose(pre + t) <==> NoWriteAfterClose(t)
  {
    WritesOfSilent(pre);
    WritesOfAppend(pre, t);
    if NoWriteAfterClose(t) {
      NoWriteAfterCloseAppend(pre, t);
    } else {
      WriteAfterCloseShifts(pre, t);
    }
  }

  /** A write after the close stays one when anything is put in front. */
  lemma WriteAfterCloseShifts(pre: seq<Effect>, t: seq<Effect>)
    requires !NoWriteAfterClose(t)
    ensures !NoWriteAfterClose(pre + t)
  {
    var i, j :| 0 <= i < j < |t| && t[i] == CloseAfterWriting && t[j].Write?;
    assert (pre + t)[|pre| + i] == t[i];
    assert (pre + t)[|pre| + j] == t[j];
  }
}

=== FILE: lifecycle.dfy ===
/**
  Whole exchanges on one connection: a request fed in pieces, answered
  synchronously or through the async callback, and a peer that may go
  away at any point. Each lemma counts effects over the traces of several
  consecutive calls.
 */
module Lifecycle {
  import opened Effects
  import opened Values
  import opened Connection
  import opened Properties

  /** Receiving data keeps the connection's settings mirrored into its
      request and changes none of them. */
  lemma ReceiveDataKeepsMirrored(c: Conn, data: string, finished: bool, app: AppOutcome,
                                 each: Response -> Emission)
    requires Mirrored(c)
    ensures var r := ReceiveData(c, data, finished, app, each);
            && Mirrored(r.conn)
            && r.conn.logger == c.logger && r.conn.status == c.status
            && r.conn.config == c.config && r.conn.options == c.options
  {
  }

  /** The source's `process`, the callback and `unbind` keep the settings
      mirrored too. */
  lemma OperationsKeepMirrored(c: Conn, app: AppOutcome, results: Option<seq<Value>>,
                               each: Response -> Emission)
    requires Mirrored(c)
    ensures Mirrored(ProcessAsWritten(c, app, each).conn)
    ensures Mirrored(AsyncProcess(c, results, each).conn)
    ensures Mirrored(Unbind(c).conn)
  {
  }

  /** A request that completes synchronously while `async_close` is
      present, or whose handler raised, hands exactly the stored response's
      chunks to `send_data`, and none after the close. */
  lemma SyncRequestWrites(c: Conn, data: string, app: AppOutcome, each: Response -> Emission)
    requires c.request.asyncClose.Handle? || app.AppRaised?
    requires app.AppRaised? || !AsyncResponse(Some(ToA(app.results)))
    ensures var r := ReceiveData(c, data, true, app, each);
            && WritesOf(r.effects) == each(r.conn.response).chunks
            && NoWriteAfterClose(r.effects)
  {
    var c' := c.(request := c.request.(received := c.request.received + [data], finished := true));
    var p := Process(c', app, each);
    ProcessAsWrittenAgrees(c', app, each);
    ProcessTerminatesOnce(c', app, each);
    AfterParse(data, p.effects);
  }

  /** A request that completes synchronously: one call to the application,
      one termination and one `async_close` signal, and nothing
      propagates. */
  lemma SyncRequestCompletes(c: Conn, data: string, app: AppOutcome, each: Response -> Emission)
    requires c.request.asyncClose.Handle?
    requires app.AppRaised? || !AsyncResponse(Some(ToA(app.results)))
    ensures var r := ReceiveData(c, data, true, app, each);
            && !r.raised
            && Count(r.effects, AppCalled) == 1
            && Count(r.effects, CloseAfterWriting) == 1
            && Count(r.effects, AsyncCloseSignal) == 1
  {
    var c' := c.(request := c.request.(received := c.request.received + [data], finished := true));
    var p := Process(c', app, each);
    ProcessAsWrittenAgrees(c', app, each);
    ProcessTerminatesOnce(c', app, each);
    AfterParse(data, p.effects);
  }

  /** With a `nil` `async_close`, a request answered normally is answered
      twice: `terminate_request` runs twice and the second failure
      escapes `receive_data`. */
  lemma NilHandleRequestTerminatesTwice(c: Conn, data: string, results: Option<seq<Value>>,
                                        each: Response -> Emission)
    requires c.request.asyncClose.NoHandle?
    requires !AsyncResponse(Some(ToA(results)))
    ensures var r := ReceiveData(c, data, true, Returned(results), each);
            && r.raised
            && Count(r.effects, CloseAfterWriting) == 2
  {
    var c' := c.(request := c.request.(received := c.request.received + [data], finished := true));
    var p := ProcessAsWritten(c', Returned(results), each);
    ProcessAsWrittenTerminatesTwice(c', results, each);
    AfterParse(data, p.effects);
  }

  /** ... and writes the application's response and then the fallback,
      which comes after the close when it has a body. */
  lemma NilHandleRequestWritesTwice(c: Conn, data: string, results: Option<seq<Value>>,
                                    each: Response -> Emission)
    requires c.request.asyncClose.NoHandle?
    requires !AsyncResponse(Some(ToA(results)))
    ensures var r := ReceiveData(c, data, true, Returned(results), each);
            && WritesOf(r.effects) == each(Assign(ToA(results))).chunks + each(Assign(FallbackResult)).chunks
            && (|each(Assign(FallbackResult)).chunks| > 0 ==> !NoWriteAfterClose(r.effects))
  {
    var c' := c.(request := c.request.(received := c.request.received + [data], finished := true));
    var p := ProcessAsWritten(c', Returned(results), each);
    ProcessAsWrittenWritesTwice(c', results, each);
    AfterParse(data, p.effects);
  }

  /** A completed request stores the application's triple, or the 500
      fallback when the application raised or when a `nil` `async_close`
      sent the source's `process` into its `rescue`. */
  lemma SyncRequestStores(c: Conn, data: string, app: AppOutcome, each: Response -> Emission)
    requires app.AppRaised? || !AsyncResponse(Some(ToA(app.results)))
    ensures ReceiveData(c, data, true, app, each).conn.response
            == (if app.AppRaised? || c.request.asyncClose.NoHandle? then Assign(FallbackResult)
                else Assign(ToA(app.results)))
  {
  }

  /** A completed request logs its body iff the status is not 200, and
      logs the fallback's 500 body too when a `nil` `async_close` sent the
      source's `process` into its `rescue`. */
  lemma SyncRequestLogsBody(c: Conn, data: string, results: Option<seq<Value>>, each: Response -> Emission)
    requires !AsyncResponse(Some(ToA(results)))
    ensures Count(ReceiveData(c, data, true, Returned(results), each).effects, LogSyncBody)
            == (if Assign(ToA(results)).status == Int(200) then 0 else 1)
               + (if c.request.asyncClose.NoHandle? then 1 else 0)
  {
    var c' := c.(request := c.request.(received := c.request.received + [data], finished := true));
    var p := ProcessAsWritten(c', Returned(results), each);
    ProcessAsWrittenLogsBody(c', results, each);
    CountAppend([Parsed(data)], p.effects, LogSyncBody);
  }

  /** A request whose handler raised answers with the fallback, logs the
      error once when the fallback can be sent, writes the fallback's
      chunks and terminates once. */
  lemma RaisingRequestCompletes(c: Conn, data: string, each: Response -> Emission)
    requires !each(Assign(FallbackResult)).raises
    ensures var r := ReceiveData(c, data, true, AppRaised, each);
            && r.conn.response.status == Int(500)
            && WritesOf(r.effects) == each(Assign(FallbackResult)).chunks
            && Count(r.effects, LogError) == 1
            && Count(r.effects, CloseAfterWriting) == 1
  {
    var c' := c.(request := c.request.(received := c.request.received + [data], finished := true));
    var p := Process(c', AppRaised, each);
    ProcessAsWrittenAgrees(c', AppRaised, each);
    ProcessAppRaisedLogs(c', each);
    ProcessTerminatesOnce(c', AppRaised, each);
    AfterParse(data, p.effects);
  }

  /** A request answered later: when the application returns the
      sentinel nothing is written, closed or signalled. */
  lemma DeferredRequestWaits(c: Conn, data: string, sentinel: Option<seq<Value>>, each: Response -> Emission)
    requires AsyncResponse(Some(ToA(sentinel)))
    ensures var r := ReceiveData(c, data, true, Returned(sentinel), each);
            && r.effects == [Parsed(data), AppCalled]
            && r.conn.response == c.response
            && !r.raised
            && WritesOf(r.effects) == []
            && Count(r.effects, CloseAfterWriting) == 0
  {
    WritesOfSilent([Parsed(data), AppCalled]);
  }

  /** When the callback delivers the result, exactly its chunks are
      written and the exchange terminates once over the two calls
      together. */
  lemma DeferredRequestCompletes(c: Conn, data: string, sentinel: Option<seq<Value>>,
                                 later: Option<seq<Value>>, each: Response -> Emission)
    requires c.request.asyncClose.Handle?
    requires AsyncResponse(Some(ToA(sentinel)))
    requires !each(Assign(ToA(later))).raises
    ensures var r1 := ReceiveData(c, data, true, Returned(sentinel), each);
            var r2 := AsyncProcess(r1.conn, later, each);
            && !r2.raised
            && WritesOf(r1.effects + r2.effects) == each(Assign(ToA(later))).chunks
            && Count(r1.effects + r2.effects, CloseAfterWriting) == 1
            && Count(r1.effects + r2.effects, AsyncCloseSignal) == 1
  {
    var r1 := ReceiveData(c, data, true, Returned(sentinel), each);
    var r2 := AsyncProcess(r1.conn, later, each);
    DeferredRequestWaits(c, data, sentinel, each);
    AsyncProcessDelivers(r1.conn, later, each);
    QuietPrefix(r1.effects, r2.effects);
    CountAppend(r1.effects, r2.effects, CloseAfterWriting);
    CountAppend(r1.effects, r2.effects, AsyncCloseSignal);
  }

  /** The peer goes away while the response is deferred: `async_close` is
      signalled once, nothing is written or closed, and the body is failed
      only if it can fail. */
  lemma UnbindWhileDeferred(c: Conn, data: string, sentinel: Option<seq<Value>>, each: Response -> Emission)
    requires c.request.asyncClose.Handle?
    requires AsyncResponse(Some(ToA(sentinel)))
    ensures var r1 := ReceiveData(c, data, true, Returned(sentinel), each);
            var u := Unbind(r1.conn);
            && WritesOf(r1.effects + u.effects) == []
            && Count(r1.effects + u.effects, CloseAfterWriting) == 0
            && Count(r1.effects + u.effects, AsyncCloseSignal) == 1
            && Count(r1.effects + u.effects, BodyFail) == (if RespondsToFail(c.response.body) then 1 else 0)
  {
    var r1 := ReceiveData(c, data, true, Returned(sentinel), each);
    var u := Unbind(r1.conn);
    DeferredRequestWaits(c, data, sentinel, each);
    QuietPrefix(r1.effects, u.effects);
    WritesOfSilent(u.effects);
    CountAppend(r1.effects, u.effects, CloseAfterWriting);
    CountAppend(r1.effects, u.effects, AsyncCloseSignal);
    CountAppend(r1.effects, u.effects, BodyFail);
  }

  /** The peer goes away after a synchronous response was terminated:
      `unbind` does not check whether `async_close` already fired, so it is
      signalled a second time. */
  lemma UnbindAfterTerminationSignalsAgain(c: Conn, data: string, app: AppOutcome, each: Response -> Emission)
    requires c.request.asyncClose.Handle?
    requires app.AppRaised? || !AsyncResponse(Some(ToA(app.results)))
    ensures var r := ReceiveData(c, data, true, app, each);
            Count(r.effects + Unbind(r.conn).effects, AsyncCloseSignal) == 2
  {
    var r := ReceiveData(c, data, true, app, each);
    SyncRequestCompletes(c, data, app, each);
    CountAppend(r.effects, Unbind(r.conn).effects, AsyncCloseSignal);
  }

  /** Whatever came before it, `unbind` writes nothing more and closes
      nothing more. */
  lemma UnbindAddsNothing(t: seq<Effect>, c: Conn)
    ensures WritesOf(t + Unbind(c).effects) == WritesOf(t)
    ensures Count(t + Unbind(c).effects, CloseAfterWriting) == Count(t, CloseAfterWriting)
  {
    WritesOfAppend(t, Unbind(c).effects);
    CountAppend(t, Unbind(c).effects, CloseAfterWriting);
  }

  /** A serializer that yields the body's strings and never raises, used
      to play out concrete exchanges. */
  function BodyChunks(r: Response): (e: Emission)
    ensures !e.raises
    ensures r.body.Parts? ==> e.chunks == r.body.parts
    ensures r.body.Str? ==> e.chunks == [r.body.s]
    ensures !r.body.Parts? && !r.body.Str? ==> e.chunks == []
  {
    match r.body
    case Parts(ps) => Emission(ps, false)
    case Str(s) => Emission([s], false)
    case _ => Emission([], false)
  }

  /** A connection as the server sets it up: `post_init` with an
      `async_close` handle, then `logger=`. */
  const Fresh: Conn := SetLogger(PostInit(Handle, None, Response(Nil, Nil, Nil)), Some(Ref(0)))

  /** The same set-up on a request whose `async_close` is `nil`. */
  const FreshNoHandle: Conn := SetLogger(PostInit(NoHandle, None, Response(Nil, Nil, Nil)), Some(Ref(0)))

  /** A handler answering `(200, {"Content-Length" => "5"}, ["hello"])`:
      "hello" is written, no body is logged because the status is 200, and
      the connection is closed once after writing. */
  lemma ScenarioHello()
    ensures var r := ReceiveData(Fresh, "GET / HTTP/1.1\r\n\r\n", true,
                                 Returned(Some([Int(200), Hash(map["Content-Length" := "5"]), Parts(["hello"])])),
                                 BodyChunks);
            && WritesOf(r.effects) == ["hello"]
            && Count(r.effects, LogSyncBody) == 0
            && Count(r.effects, CloseAfterWriting) == 1
            && !r.raised
  {
    var results := Some([Int(200), Hash(map["Content-Length" := "5"]), Parts(["hello"])]);
    SyncRequestCompletes(Fresh, "GET / HTTP/1.1\r\n\r\n", Returned(results), BodyChunks);
    SyncRequestWrites(Fresh, "GET / HTTP/1.1\r\n\r\n", Returned(results), BodyChunks);
    SyncRequestStores(Fresh, "GET / HTTP/1.1\r\n\r\n", Returned(results), BodyChunks);
    SyncRequestLogsBody(Fresh, "GET / HTTP/1.1\r\n\r\n", results, BodyChunks);
  }

  /** A handler returning the sentinel and later calling back with
      `(200, {}, ["ok"])`: nothing at return time, then "ok" written once
      and one close. The latency in the summary log line is not modelled. */
  lemma ScenarioDeferred()
    ensures var r1 := ReceiveData(Fresh, "GET / HTTP/1.1\r\n\r\n", true, Returned(Some(AsyncSentinel)), BodyChunks);
            var r2 := AsyncProcess(r1.conn, Some([Int(200), Hash(map[]), Parts(["ok"])]), BodyChunks);
            && WritesOf(r1.effects) == [] && Count(r1.effects, CloseAfterWriting) == 0
            && WritesOf(r1.effects + r2.effects) == ["ok"]
            && Count(r1.effects + r2.effects, CloseAfterWriting) == 1
  {
    DeferredRequestWaits(Fresh, "GET / HTTP/1.1\r\n\r\n", Some(AsyncSentinel), BodyChunks);
    DeferredRequestCompletes(Fresh, "GET / HTTP/1.1\r\n\r\n", Some(AsyncSentinel),
                             Some([Int(200), Hash(map[]), Parts(["ok"])]), BodyChunks);
  }

  /** A handler that raises: the 500 fallback with body "An error
      happened" is written, the error is logged, and the exchange still
      terminates. */
  lemma ScenarioHandlerRaises()
    ensures var r := ReceiveData(Fresh, "GET / HTTP/1.1\r\n\r\n", true, AppRaised, BodyChunks);
            && r.conn.response.status == Int(500)
            && WritesOf(r.effects) == ["An error happened"]
            && Count(r.effects, LogError) == 1
            && Count(r.effects, CloseAfterWriting) == 1
  {
    RaisingRequestCompletes(Fresh, "GET / HTTP/1.1\r\n\r\n", BodyChunks);
  }

  /** The peer disconnects while the response is deferred: one signal, no
      write, and no body to fail because none was stored yet. */
  lemma ScenarioDisconnectWhilePending()
    ensures var r1 := ReceiveData(Fresh, "GET / HTTP/1.1\r\n\r\n", true, Returned(Some(AsyncSentinel)), BodyChunks);
            var u := Unbind(r1.conn);
            && Count(r1.effects + u.effects, AsyncCloseSignal) == 1
            && WritesOf(r1.effects + u.effects) == []
            && Count(r1.effects + u.effects, BodyFail) == 0
  {
    UnbindWhileDeferred(Fresh, "GET / HTTP/1.1\r\n\r\n", Some(AsyncSentinel), BodyChunks);
  }

  /** The source's `process` on a connection whose `async_close` is `nil`
      answering `[200, {}, ["hello"]]`: `terminate_request` runs twice, a
      write follows the close, and the exception escapes. */
  lemma ScenarioNilAsyncClose()
    ensures var r := ProcessAsWritten(FreshNoHandle,
                                      Returned(Some([Int(200), Hash(map[]), Parts(["hello"])])), BodyChunks);
            && Count(r.effects, CloseAfterWriting) == 2
            && !NoWriteAfterClose(r.effects)
            && r.raised
  {
    var results := Some([Int(200), Hash(map[]), Parts(["hello"])]);
    assert BodyChunks(Assign(FallbackResult)).chunks == ["An error happened"];
    ProcessAsWrittenTerminatesTwice(FreshNoHandle, results, BodyChunks);
    ProcessAsWrittenWritesTwice(FreshNoHandle, results, BodyChunks);
  }

  /** ... and writes "hello" and then the 500 fallback's body. */
  lemma ScenarioNilAsyncCloseWrites()
    ensures var r := ProcessAsWritten(FreshNoHandle,
                                      Returned(Some([Int(200), Hash(map[]), Parts(["hello"])])), BodyChunks);
            WritesOf(r.effects) == ["hello", "An error happened"]
  {
    NilHandleHelloWrites(FreshNoHandle);
  }

  /** The writes of that scenario on any connection whose `async_close`
      is `nil`. */
  lemma NilHandleHelloWrites(c: Conn)
    requires c.request.asyncClose.NoHandle?
    ensures var r := ProcessAsWritten(c, Returned(Some([Int(200), Hash(map[]), Parts(["hello"])])), BodyChunks);
            WritesOf(r.effects) == ["hello", "An error happened"]
  {
    var results := Some([Int(200), Hash(map[]), Parts(["hello"])]);
    var r := ProcessAsWritten(c, Returned(results), BodyChunks);
    var first := BodyChunks(Assign(ToA(results))).chunks;
    var fallback := BodyChunks(Assign(FallbackResult)).chunks;
    assert first == ["hello"];
    assert fallback == ["An error happened"];
    ProcessAsWrittenWritesTwice(c, results, BodyChunks);
    assert WritesOf(r.effects) == first + fallback;
  }

  /** The corrected `process` on the same connection writes "hello" once
      and terminates once; the failing termination still propagates. */
  lemma ScenarioNilAsyncCloseCorrected()
    ensures var r := Process(FreshNoHandle,
                             Returned(Some([Int(200), Hash(map[]), Parts(["hello"])])), BodyChunks);
            && WritesOf(r.effects) == ["hello"]
            && Count(r.effects, CloseAfterWriting) == 1
            && r.raised
  {
    ProcessTerminatesOnce(FreshNoHandle,
                          Returned(Some([Int(200), Hash(map[]), Parts(["hello"])])), BodyChunks);
  }
}

=== FILE: properties.dfy ===
/**
  What each completion path of `Goliath::Connection` does, counted over the
  effects of one call: how many writes, terminations, signals and log lines.
 */
module Properties {
  import opened Effects
  import opened Values
  import opened Connection

  /** `terminate_request` in order: close after writing, then signal
      `async_close`, then close the response; a `nil` handle stops it after
      the first step. */
  lemma TerminateRequestInOrder(c: Conn)
    ensures c.request.asyncClose.Handle? ==>
      TerminateRequest(c).effects == [CloseAfterWriting, AsyncCloseSignal, ResponseClose]
    ensures c.request.asyncClose.NoHandle? ==>
      TerminateRequest(c).effects == [CloseAfterWriting]
  {
  }

  /** Setting a value twice keeps the last one, in the connection and in
      its request alike. */
  lemma SettersKeepLast(c: Conn, a: Option<Ref>, b: Option<Ref>)
    ensures SetLogger(SetLogger(c, a), b) == SetLogger(c, b)
    ensures SetStatus(SetStatus(c, a), b) == SetStatus(c, b)
    ensures SetConfig(SetConfig(c, a), b) == SetConfig(c, b)
    ensures SetOptions(SetOptions(c, a), b) == SetOptions(c, b)
  {
  }

  /** The effects of the synchronous path of `post_process`, in order:
      diagnostics, one write per chunk, the rescued error if sending
      raised, then the `ensure`'s `terminate_request`. */
  lemma PostProcessSyncShape(c: Conn, results: Option<seq<Value>>, each: Response -> Emission)
    requires !AsyncResponse(Some(ToA(results)))
    ensures var resp := Assign(ToA(results));
            PostProcess(c, results, each).effects
              == SyncLogs(resp) + Writes(each(resp).chunks)
                 + ((if each(resp).raises then [LogError] else []) + TerminateRequest(c.(response := resp)).effects)
  {
    var resp := Assign(ToA(results));
    var rescued := if each(resp).raises then [LogError] else [];
    var term := TerminateRequest(c.(response := resp)).effects;
    assert SyncLogs(resp) + Writes(each(resp).chunks) + rescued + term
        == SyncLogs(resp) + Writes(each(resp).chunks) + (rescued + term);
  }

  /** The synchronous path of `post_process` hands exactly the response's
      chunks to `send_data`, in order, and none of them after the close. */
  lemma PostProcessSyncWrites(c: Conn, results: Option<seq<Value>>, each: Response -> Emission)
    requires !AsyncResponse(Some(ToA(results)))
    ensures var r := PostProcess(c, results, each);
            && WritesOf(r.effects) == each(Assign(ToA(results))).chunks
            && NoWriteAfterClose(r.effects)
  {
    var resp := Assign(ToA(results));
    var rescued := if each(resp).raises then [LogError] else [];
    var term := TerminateRequest(c.(response := resp)).effects;
    PostProcessSyncShape(c, results, each);
    assert CloseAfterWriting !in SyncLogs(resp);
    WritesThenSilent(SyncLogs(resp), each(resp).chunks, rescued + term);
  }

  /** Counting over a synchronous trace: diagnostics, writes, the rescued
      error if any, then a termination that may have stopped early. */
  lemma SyncTraceCounts(logs: seq<Effect>, chunks: seq<Chunk>, rescued: seq<Effect>, term: seq<Effect>,
                        raises: bool, handle: bool)
    requires forall e :: e in logs ==> e == LogSyncBody || e == LogNilBody
    requires rescued == (if raises then [LogError] else [])
    requires forall e :: e in term ==> e == CloseAfterWriting || e == AsyncCloseSignal || e == ResponseClose
    requires Count(term, CloseAfterWriting) == 1
    requires Count(term, AsyncCloseSignal) == (if handle then 1 else 0)
    requires Count(term, ResponseClose) == (if handle then 1 else 0)
    ensures var t := logs + Writes(chunks) + (rescued + term);
            && Count(t, CloseAfterWriting) == 1
            && Count(t, AsyncCloseSignal) == (if handle then 1 else 0)
            && Count(t, ResponseClose) == (if handle then 1 else 0)
            && Count(t, LogError) == (if raises then 1 else 0)
  {
    CountSplit(logs, chunks, rescued, term, CloseAfterWriting);
    CountSplit(logs, chunks, rescued, term, AsyncCloseSignal);
    CountSplit(logs, chunks, rescued, term, ResponseClose);
    CountSplit(logs, chunks, rescued, term, LogError);
    CountZero(logs, CloseAfterWriting);
    CountZero(logs, AsyncCloseSignal);
    CountZero(logs, ResponseClose);
    CountZero(logs, LogError);
    CountZero(term, LogError);
  }

  /** ... where only the diagnostics log the body, and nothing calls the
      application. */
  lemma SyncTraceLogCounts(logs: seq<Effect>, chunks: seq<Chunk>, rescued: seq<Effect>, term: seq<Effect>,
                           raises: bool)
    requires forall e :: e in logs ==> e == LogSyncBody || e == LogNilBody
    requires rescued == (if raises then [LogError] else [])
    requires forall e :: e in term ==> e == CloseAfterWriting || e == AsyncCloseSignal || e == ResponseClose
    ensures var t := logs + Writes(chunks) + (rescued + term);
            && Count(t, LogSyncBody) == Count(logs, LogSyncBody)
            && Count(t, LogNilBody) == Count(logs, LogNilBody)
            && Count(t, AppCalled) == 0
  {
    CountSplit(logs, chunks, rescued, term, LogSyncBody);
    CountSplit(logs, chunks, rescued, term, LogNilBody);
    CountSplit(logs, chunks, rescued, term, AppCalled);
    CountZero(logs, AppCalled);
    CountZero(term, LogSyncBody);
    CountZero(term, LogNilBody);
    CountZero(term, AppCalled);
  }

  /** Counting over a synchronous trace: the writes contribute nothing. */
  lemma CountSplit(logs: seq<Effect>, chunks: seq<Chunk>, rescued: seq<Effect>, term: seq<Effect>, e: Effect)
    requires !e.Write?
    ensures Count(logs + Writes(chunks) + (rescued + term), e)
            == Count(logs, e) + Count(rescued, e) + Count(term, e)
  {
    CountAppend(logs, Writes(chunks), e);
    CountAppend(logs + Writes(chunks), rescued + term, e);
    CountAppend(rescued, term, e);
    CountWrites(chunks, e);
  }

  /** The synchronous path of `post_process` stores the triple and runs
      `terminate_request` exactly once, even if sending raised. A send
      failure is logged once and is not re-raised: only a failing
      termination propagates, and then the response is not closed. The
      body is logged iff the status is not 200, the debug line fires iff
      the body is `nil`, and the application is not called here. */
  lemma PostProcessSyncCounts(c: Conn, results: Option<seq<Value>>, each: Response -> Emission)
    requires !AsyncResponse(Some(ToA(results)))
    ensures var r := PostProcess(c, results, each);
            var resp := Assign(ToA(results));
            && r.conn.response == resp
            && Count(r.effects, CloseAfterWriting) == 1
            && (r.raised <==> c.request.asyncClose.NoHandle?)
            && Count(r.effects, AsyncCloseSignal) == (if r.raised then 0 else 1)
            && Count(r.effects, ResponseClose) == (if r.raised then 0 else 1)
            && Count(r.effects, LogError) == (if each(resp).raises then 1 else 0)
            && Count(r.effects, LogSyncBody) == (if resp.status == Int(200) then 0 else 1)
            && Count(r.effects, LogNilBody) == (if resp.body == Nil then 1 else 0)
            && Count(r.effects, AppCalled) == 0
  {
    var resp := Assign(ToA(results));
    var rescued := if each(resp).raises then [LogError] else [];
    var term := TerminateRequest(c.(response := resp)).effects;
    PostProcessSyncShape(c, results, each);
    SyncTraceCounts(SyncLogs(resp), each(resp).chunks, rescued, term,
                    each(resp).raises, c.request.asyncClose.Handle?);
    SyncTraceLogCounts(SyncLogs(resp), each(resp).chunks, rescued, term, each(resp).raises);
  }

  /** The deferred path: a sentinel result leaves the connection untouched
      and does nothing at all, neither a write nor a termination. */
  lemma PostProcessDeferred(c: Conn, results: Option<seq<Value>>, each: Response -> Emission)
    requires AsyncResponse(Some(ToA(results)))
    ensures var r := PostProcess(c, results, each);
            && r.conn.response == c.response
            && WritesOf(r.effects) == []
            && Count(r.effects, CloseAfterWriting) == 0
            && Count(r.effects, AsyncCloseSignal) == 0
            && !r.raised
  {
  }

  /** What `process` puts in front of `post_process`'s effects: the call to
      the application, and the error log if it raised. */
  lemma AfterAppCall(pre: seq<Effect>, t: seq<Effect>)
    requires pre == [AppCalled] || pre == [AppCalled, LogError]
    ensures WritesOf(pre + t) == WritesOf(t)
    ensures NoWriteAfterClose(pre + t) <==> NoWriteAfterClose(t)
    ensures Count(pre + t, AppCalled) == Count(t, AppCalled) + 1
    ensures Count(pre + t, LogError) == Count(t, LogError) + |pre| - 1
    ensures Count(pre + t, CloseAfterWriting) == Count(t, CloseAfterWriting)
    ensures Count(pre + t, AsyncCloseSignal) == Count(t, AsyncCloseSignal)
  {
    QuietPrefix(pre, t);
    CountAppend(pre, t, AppCalled);
    CountAppend(pre, t, LogError);
    CountAppend(pre, t, CloseAfterWriting);
    CountAppend(pre, t, AsyncCloseSignal);
  }

  /** What `receive_data` puts in front of `process`'s effects: handing the
      data to the parser writes nothing, closes nothing and calls nothing. */
  lemma AfterParse(data: string, t: seq<Effect>)
    ensures WritesOf([Parsed(data)] + t) == WritesOf(t)
    ensures NoWriteAfterClose([Parsed(data)] + t) <==> NoWriteAfterClose(t)
    ensures Count([Parsed(data)] + t, AppCalled) == Count(t, AppCalled)
    ensures Count([Parsed(data)] + t, LogError) == Count(t, LogError)
    ensures Count([Parsed(data)] + t, CloseAfterWriting) == Count(t, CloseAfterWriting)
    ensures Count([Parsed(data)] + t, AsyncCloseSignal) == Count(t, AsyncCloseSignal)
  {
    QuietPrefix([Parsed(data)], t);
    CountAppend([Parsed(data)], t, AppCalled);
    CountAppend([Parsed(data)], t, LogError);
    CountAppend([Parsed(data)], t, CloseAfterWriting);
    CountAppend([Parsed(data)], t, AsyncCloseSignal);
  }

  /** `process` on any result that is not a sentinel, including the
      fallback after the application raised: the application is called
      once, the stored response is written, and there is exactly one
      termination, after the last write. */
  lemma ProcessTerminatesOnce(c: Conn, app: AppOutcome, each: Response -> Emission)
    requires app.AppRaised? || !AsyncResponse(Some(ToA(app.results)))
    ensures var r := Process(c, app, each);
            && Count(r.effects, AppCalled) == 1
            && WritesOf(r.effects) == each(r.conn.response).chunks
            && NoWriteAfterClose(r.effects)
            && Count(r.effects, CloseAfterWriting) == 1
            && Count(r.effects, AsyncCloseSignal) == (if c.request.asyncClose.Handle? then 1 else 0)
            && (r.raised <==> c.request.asyncClose.NoHandle?)
  {
    var results := if app.AppRaised? then Some(FallbackResult) else app.results;
    var pre := if app.AppRaised? then [AppCalled, LogError] else [AppCalled];
    var s := PostProcess(c, results, each);
    PostProcessSyncWrites(c, results, each);
    PostProcessSyncCounts(c, results, each);
    AfterAppCall(pre, s.effects);
  }

  /** When the application raises, the answer is the fixed 500 fallback.
      Its chunks are written and it terminates once, as
      `ProcessTerminatesOnce` states for every non-sentinel outcome. */
  lemma ProcessAppRaised(c: Conn, each: Response -> Emission)
    ensures var r := Process(c, AppRaised, each);
            && r.conn.response == Assign(FallbackResult)
            && r.conn.response.status == Int(500)
            && r.conn.response.body == Str("An error happened")
  {
  }

  /** When the application raises, the error is logged, and once more if
      sending the fallback fails too. */
  lemma ProcessAppRaisedLogs(c: Conn, each: Response -> Emission)
    ensures var r := Process(c, AppRaised, each);
            Count(r.effects, LogError) == (if each(Assign(FallbackResult)).raises then 2 else 1)
  {
    var s := PostProcess(c, Some(FallbackResult), each);
    PostProcessSyncCounts(c, Some(FallbackResult), each);
    AfterAppCall([AppCalled, LogError], s.effects);
  }

  /** An application that returns the sentinel gets a `process` that calls
      it and then does nothing else until the callback fires. */
  lemma ProcessDeferred(c: Conn, results: Option<seq<Value>>, each: Response -> Emission)
    requires AsyncResponse(Some(ToA(results)))
    ensures var r := Process(c, Returned(results), each);
            && r.conn == c
            && WritesOf(r.effects) == []
            && Count(r.effects, CloseAfterWriting) == 0
            && Count(r.effects, AsyncCloseSignal) == 0
            && Count(r.effects, AppCalled) == 1
            && !r.raised
  {
    AfterAppCall([AppCalled], []);
  }

  /** While `async_close` is present, and whenever the application raises,
      the source's `process` and the corrected one agree on every outcome:
      the wide `rescue` only matters when termination of the application's
      own response raises. */
  lemma ProcessAsWrittenAgrees(c: Conn, app: AppOutcome, each: Response -> Emission)
    requires c.request.asyncClose.Handle? || app.AppRaised?
    ensures ProcessAsWritten(c, app, each) == Process(c, app, each)
  {
  }

  /** Two `post_process` runs separated by the rescue's error log write
      both responses, one after the other. */
  lemma TwoResponsesWrites(a: seq<Effect>, b: seq<Effect>)
    ensures WritesOf([AppCalled] + a + [LogError] + b) == WritesOf(a) + WritesOf(b)
  {
    WritesOfSilent([AppCalled]);
    WritesOfSilent([LogError]);
    WritesOfAppend([AppCalled], a);
    WritesOfAppend([AppCalled] + a, [LogError]);
    WritesOfAppend([AppCalled] + a + [LogError], b);
  }

  /** ... and when the first run asked to close and the second writes, a
      write follows the close. */
  lemma TwoResponsesWriteAfterClose(a: seq<Effect>, b: seq<Effect>)
    requires CloseAfterWriting in a
    requires exists j :: 0 <= j < |b| && b[j].Write?
    ensures !NoWriteAfterClose([AppCalled] + a + [LogError] + b)
  {
    var t := [AppCalled] + a + [LogError] + b;
    var k :| 0 <= k < |a| && a[k] == CloseAfterWriting;
    var j :| 0 <= j < |b| && b[j].Write?;
    assert t[1 + k] == CloseAfterWriting;
    assert t[|a| + 2 + j] == b[j];
  }

  /** A trace that writes something holds a `Write`. */
  lemma {:induction false} WritesOfNonEmpty(t: seq<Effect>)
    requires |WritesOf(t)| > 0
    ensures exists j :: 0 <= j < |t| && t[j].Write?
  {
    if !t[0].Write? {
      WritesOfNonEmpty(t[1..]);
      var j :| 0 <= j < |t[1..]| && t[1..][j].Write?;
      assert t[j + 1].Write?;
    }
  }

  /** The source's `process` when `async_close` is `nil` and the
      application returned a normal result: termination raises, the wide
      `rescue` answers with the 500 fallback through `post_process` again,
      so `terminate_request` runs twice and the second failure escapes. */
  lemma ProcessAsWrittenTerminatesTwice(c: Conn, results: Option<seq<Value>>, each: Response -> Emission)
    requires c.request.asyncClose.NoHandle?
    requires !AsyncResponse(Some(ToA(results)))
    ensures var r := ProcessAsWritten(c, Returned(results), each);
            && r.raised
            && Count(r.effects, CloseAfterWriting) == 2
  {
    var s := PostProcess(c, results, each);
    PostProcessSyncCounts(c, results, each);
    var f := PostProcess(s.conn, Some(FallbackResult), each);
    PostProcessSyncCounts(s.conn, Some(FallbackResult), each);
    assert ProcessAsWritten(c, Returned(results), each).effects == [AppCalled] + s.effects + [LogError] + f.effects;
    TwoResponsesCountOf(s.effects, f.effects, CloseAfterWriting);
  }

  /** In the same situation both responses are written, one after the
      other, and when the fallback has a body it is written after the
      close was requested. */
  lemma ProcessAsWrittenWritesTwice(c: Conn, results: Option<seq<Value>>, each: Response -> Emission)
    requires c.request.asyncClose.NoHandle?
    requires !AsyncResponse(Some(ToA(results)))
    ensures var r := ProcessAsWritten(c, Returned(results), each);
            && WritesOf(r.effects) == each(Assign(ToA(results))).chunks + each(Assign(FallbackResult)).chunks
            && (|each(Assign(FallbackResult)).chunks| > 0 ==> !NoWriteAfterClose(r.effects))
  {
    var s := PostProcess(c, results, each);
    PostProcessSyncWrites(c, results, each);
    PostProcessSyncCounts(c, results, each);
    var f := PostProcess(s.conn, Some(FallbackResult), each);
    PostProcessSyncWrites(s.conn, Some(FallbackResult), each);
    TwoResponsesWrites(s.effects, f.effects);
    if |each(Assign(FallbackResult)).chunks| > 0 {
      WritesOfNonEmpty(f.effects);
      CountZero(s.effects, CloseAfterWriting);
      TwoResponsesWriteAfterClose(s.effects, f.effects);
    }
  }

  /** The callback path when sending succeeds: the deferred result is
      stored, logged once, written in order and terminated once, after the
      last write. */
  lemma AsyncProcessDelivers(c: Conn, results: Option<seq<Value>>, each: Response -> Emission)
    requires !each(Assign(ToA(results))).raises
    ensures var r := AsyncProcess(c, results, each);
            var resp := Assign(ToA(results));
            && r.conn.response == resp
            && Count(r.effects, LogAsyncSummary) == 1
            && WritesOf(r.effects) == each(resp).chunks
            && NoWriteAfterClose(r.effects)
            && Count(r.effects, CloseAfterWriting) == 1
            && Count(r.effects, AsyncCloseSignal) == (if c.request.asyncClose.Handle? then 1 else 0)
            && (r.raised <==> c.request.asyncClose.NoHandle?)
  {
    var resp := Assign(ToA(results));
    var term := TerminateRequest(c.(response := resp)).effects;
    assert AsyncProcess(c, results, each).effects
        == [LogAsyncSummary] + Writes(each(resp).chunks) + term;
    WritesThenSilent([LogAsyncSummary], each(resp).chunks, term);
    AsyncTraceCounts(each(resp).chunks, term, c.request.asyncClose.Handle?);
  }

  /** Counting over the callback's trace: one summary log, the writes,
      then the termination. */
  lemma AsyncTraceCounts(chunks: seq<Chunk>, term: seq<Effect>, handle: bool)
    requires forall e :: e in term ==> e == CloseAfterWriting || e == AsyncCloseSignal || e == ResponseClose
    requires Count(term, CloseAfterWriting) == 1
    requires Count(term, AsyncCloseSignal) == (if handle then 1 else 0)
    ensures var t := [LogAsyncSummary] + Writes(chunks) + term;
            && Count(t, LogAsyncSummary) == 1
            && Count(t, CloseAfterWriting) == 1
            && Count(t, AsyncCloseSignal) == (if handle then 1 else 0)
  {
    CountSplit([LogAsyncSummary], chunks, [], term, LogAsyncSummary);
    CountSplit([LogAsyncSummary], chunks, [], term, CloseAfterWriting);
    CountSplit([LogAsyncSummary], chunks, [], term, AsyncCloseSignal);
    assert [] + term == term;
    CountZero(term, LogAsyncSummary);
  }

  /** The callback path when sending raises: there is no `rescue`, so the
      exception escapes, nothing is logged as an error, and the request is
      never terminated. */
  lemma AsyncProcessSendFails(c: Conn, results: Option<seq<Value>>, each: Response -> Emission)
    requires each(Assign(ToA(results))).raises
    ensures var r := AsyncProcess(c, results, each);
            && r.raised
            && WritesOf(r.effects) == each(Assign(ToA(results))).chunks
            && Count(r.effects, CloseAfterWriting) == 0
            && Count(r.effects, AsyncCloseSignal) == 0
            && Count(r.effects, LogError) == 0
  {
    var chunks := each(Assign(ToA(results))).chunks;
    assert AsyncProcess(c, results, each).effects == [LogAsyncSummary] + Writes(chunks) + [];
    WritesThenSilent([LogAsyncSummary], chunks, []);
    CountAppend([LogAsyncSummary], Writes(chunks), CloseAfterWriting);
    CountAppend([LogAsyncSummary], Writes(chunks), AsyncCloseSignal);
    CountAppend([LogAsyncSummary], Writes(chunks), LogError);
    CountWrites(chunks, CloseAfterWriting);
    CountWrites(chunks, AsyncCloseSignal);
    CountWrites(chunks, LogError);
  }

  /** Every `process` calls the application exactly once, whether the
      result is a sentinel, a response or the fallback. */
  lemma ProcessCallsAppOnce(c: Conn, app: AppOutcome, each: Response -> Emission)
    ensures Count(Process(c, app, each).effects, AppCalled) == 1
  {
    var results := if app.AppRaised? then Some(FallbackResult) else app.results;
    var pre := if app.AppRaised? then [AppCalled, LogError] else [AppCalled];
    var s := PostProcess(c, results, each);
    if !AsyncResponse(Some(ToA(results))) {
      PostProcessSyncCounts(c, results, each);
    }
    AfterAppCall(pre, s.effects);
  }

  /** The source's `process` calls the application exactly once too,
      even when it runs `post_process` a second time. */
  lemma ProcessAsWrittenCallsAppOnce(c: Conn, app: AppOutcome, each: Response -> Emission)
    ensures Count(ProcessAsWritten(c, app, each).effects, AppCalled) == 1
  {
    if app.AppRaised? || c.request.asyncClose.Handle? {
      ProcessAsWrittenAgrees(c, app, each);
      ProcessCallsAppOnce(c, app, each);
    } else if !AsyncResponse(Some(ToA(app.results))) {
      NilHandleCallsAppOnce(c, app.results, each);
    }
  }

  /** With a `nil` `async_close` the source's `process` runs
      `post_process` twice but calls the application only once. */
  lemma NilHandleCallsAppOnce(c: Conn, results: Option<seq<Value>>, each: Response -> Emission)
    requires c.request.asyncClose.NoHandle?
    requires !AsyncResponse(Some(ToA(results)))
    ensures Count(ProcessAsWritten(c, Returned(results), each).effects, AppCalled) == 1
  {
    var s := PostProcess(c, results, each);
    var f := PostProcess(s.conn, Some(FallbackResult), each);
    PostProcessSyncCounts(c, results, each);
    PostProcessSyncCounts(s.conn, Some(FallbackResult), each);
    TwoResponsesCountOf(s.effects, f.effects, AppCalled);
  }

  /** Counting over the source's double answer: the application call, the
      first run, the rescued error log, then the second run. */
  lemma TwoResponsesCountOf(a: seq<Effect>, b: seq<Effect>, e: Effect)
    ensures Count([AppCalled] + a + [LogError] + b, e)
            == Count([AppCalled], e) + Count(a, e) + Count([LogError], e) + Count(b, e)
  {
    CountAppend([AppCalled] + a + [LogError], b, e);
    CountAppend([AppCalled] + a, [LogError], e);
    CountAppend([AppCalled], a, e);
  }

  /** The source's `process` on a normal result logs the body once per
      `post_process` whose status is not 200: once for the application's
      response unless it is 200, and once more for the 500 fallback when a
      `nil` `async_close` makes termination raise. */
  lemma ProcessAsWrittenLogsBody(c: Conn, results: Option<seq<Value>>, each: Response -> Emission)
    requires !AsyncResponse(Some(ToA(results)))
    ensures Count(ProcessAsWritten(c, Returned(results), each).effects, LogSyncBody)
            == (if Assign(ToA(results)).status == Int(200) then 0 else 1)
               + (if c.request.asyncClose.NoHandle? then 1 else 0)
  {
    var s := PostProcess(c, results, each);
    PostProcessSyncCounts(c, results, each);
    if c.request.asyncClose.NoHandle? {
      var f := PostProcess(s.conn, Some(FallbackResult), each);
      PostProcessSyncCounts(s.conn, Some(FallbackResult), each);
      TwoResponsesCountOf(s.effects, f.effects, LogSyncBody);
    } else {
      CountAppend([AppCalled], s.effects, LogSyncBody);
    }
  }

  /** `receive_data` calls the application exactly when the parser
      reports the request finished after this chunk. */
  lemma ReceiveDataProcessesIffFinished(c: Conn, data: string, finished: bool,
                                        app: AppOutcome, each: Response -> Emission)
    ensures var r := ReceiveData(c, data, finished, app, each);
            && Count(r.effects, AppCalled) == (if finished then 1 else 0)
  {
    if finished {
      var c' := c.(request := c.request.(received := c.request.received + [data], finished := finished));
      var p := ProcessAsWritten(c', app, each);
      ProcessAsWrittenCallsAppOnce(c', app, each);
      AfterParse(data, p.effects);
    }
  }
}

=== FILE: values.dfy ===
/**
  The Ruby values that flow through `Goliath::Connection`: the result
  triple an application returns, the async sentinel, and the three response
  fields the triple is unpacked into.
 */
module Values {

  datatype Option<+T> = None | Some(value: T)

  /** The Ruby objects that can appear in an application's result. */
  datatype Value =
    | Nil
    | Int(n: int)
    | Str(s: string)
    | Hash(entries: map<string, string>)
    | Parts(parts: seq<string>)           // an Array of body strings
    | Object(respondsToFail: bool)        // any other body object, e.g. a deferrable body

  /** `AsyncResponse = [-1, {}, []]`: the result an application returns to
      say the real response will be delivered later through the callback. */
  const AsyncSentinel: seq<Value> := [Int(-1), Hash(map[]), Parts([])]

  /** `[500, {}, 'An error happened']`: what `process` answers when the
      application raises. */
  const FallbackResult: seq<Value> := [Int(500), Hash(map[]), Str("An error happened")]

  /** `results.to_a` for the results an application may return: `nil.to_a`
      is `[]`, an Array is itself. */
  function ToA(results: Option<seq<Value>>): (a: seq<Value>)
    ensures results.None? ==> a == []
    ensures results.Some? ==> a == results.value
  {
    match results
    case None => []
    case Some(xs) => xs
  }

  /** `async_response?(results)`: `results && results.first == -1`. Only the
      first element is looked at; `[].first` is `nil`, which is not `-1`. */
  predicate AsyncResponse(results: Option<seq<Value>>)
    ensures AsyncResponse(results) ==> results.Some? && |results.value| > 0
    ensures results.Some? && |results.value| > 0 ==>
      (AsyncResponse(results) <==> results.value[0] == Int(-1))
  {
    results.Some? && |results.value| > 0 && results.value[0] == AsyncSentinel[0]
  }

  /** `body.respond_to?(:fail)`. */
  predicate RespondsToFail(body: Value)
  {
    body.Object? && body.respondsToFail
  }

  /** The three fields of `Goliath::Response` that the connection sets. */
  datatype Response = Response(status: Value, headers: Value, body: Value)

  function Fields(r: Response): (t: seq<Value>)
    ensures |t| == 3
  {
    [r.status, r.headers, r.body]
  }

  function Nth(xs: seq<Value>, i: nat): Value
  {
    if i < |xs| then xs[i] else Nil
  }

  /** `@response.status, @response.headers, @response.body = *results`:
      Ruby's parallel assignment takes the first three elements, drops any
      extra ones and fills missing ones with `nil`. */
  function Assign(results: seq<Value>): (r: Response)
    ensures |results| >= 3 ==> Fields(r) == results[..3]
    ensures |results| < 3 ==> Fields(r)[..|results|] == results
    ensures forall i :: |results| <= i < 3 ==> Fields(r)[i] == Nil
  {
    Response(Nth(results, 0), Nth(results, 1), Nth(results, 2))
  }

  /** Unpacking a response's own fields gives that response back. */
  lemma AssignFields(r: Response)
    ensures Assign(Fields(r)) == r
  {
  }

  /** A three-element result is stored field by field. */
  lemma FieldsAssign(results: seq<Value>)
    requires |results| == 3
    ensures Fields(Assign(results)) == results
  {
  }

  /** The sentinel is recognised; the fallback and `nil` are not. */
  lemma SentinelRecognised()
    ensures AsyncResponse(Some(AsyncSentinel))
    ensures !AsyncResponse(Some(FallbackResult))
    ensures !AsyncResponse(None)
    ensures !AsyncResponse(Some([]))
  {
  }

  /** Only the status `-1` makes a non-empty result a sentinel: any other
      integer, and any first element that is not an integer, never does. */
  lemma OnlyMinusOneIsAsync(results: seq<Value>)
    requires |results| > 0
    ensures AsyncResponse(Some(results)) <==> results[0].Int? && results[0].n == -1
  {
  }

  /** Headers and body are not inspected: two results with the same first
      element are classified alike. */
  lemma AsyncResponseIgnoresRest(xs: seq<Value>, ys: seq<Value>)
    requires |xs| > 0 && |ys| > 0 && xs[0] == ys[0]
    ensures AsyncResponse(Some(xs)) <==> AsyncResponse(Some(ys))
  {
  }
}
